=== FILE: README.md ===
# chaostoolkit-addons controls, modelled in Dafny

This project models three controls of chaostoolkit-addons. The experiment
runner calls each control around an activity, or around the whole experiment.

- **repeat** (`values.dfy`, `repeat.dfy`): after an activity has run,
  `after_activity_control` appends a copy of it to each experiment section
  that holds an activity of the same name. These sections are the
  steady-state hypothesis probes, the method and the rollbacks. The copy is
  stamped with an `iteration_index`. Appending stops once the index reaches
  the repeat count, minus one. The run can also be stopped after a failed
  iteration. The section lists are a `map` field of the `Experiment` class,
  and the methods update it in place.
- **bypass** (`bypass.dfy`): `before_activity_control` sets `dry` on an
  activity of the targeted type or with a targeted name, so the runner skips
  it. `after_activity_control` removes `dry` again under the same test. The
  activity dictionary is the map field of `ActivityContext`.
- **safeguards** (`safeguards.dfy`): the Guardian supervises health-check
  probes.
  - It classifies each probe as blocking, background or repeating. It takes
    Python truthiness of `frequency`, then of `background`.
  - It sizes one worker pool per class, and a barrier for the blocking
    probes plus the caller.
  - It submits one task per probe.
  - It latches an interruption the first time a probe misses its tolerance
    while the experiment is still running. At that moment it tells the
    experiment to exit.

  The Guardian is a thread-local object. So the `interrupted` flag belongs
  to the worker thread that runs the check. Of the latch state, only the
  experiment's finished flag is shared by all threads; the barrier and the
  stop flag are shared too, as they are handed to the tasks.

  Threads are not modelled:
  - pools are queues of submitted probes;
  - a worker thread is a `Worker`, named by its pool and its slot in it;
  - the barrier records who has arrived;
  - the set of workers whose flag is set, the finished flag and the
    workers that called exit are fields of `Guardian`;
  - an interleaving is a sequence of method calls or a sequence of
    `LatchEvent`s, replayed by `Replay`.

  `lookup_activity`, `run_activity` and `within_tolerance` are parameters:
  a lookup function, an `Outcome`, and a `within` predicate. Each call of
  `exit_gracefully` is recorded in `exits`, with the worker that made it.

## Model

| member | source | states |
|---|---|---|
| Values.Truthy | chaosaddons/controls/safeguards.py:135-137 | Python truthiness: exactly `None`, `False`, zero, the empty string, the empty list and the empty dictionary are falsy. |
| Values.Get | chaosaddons/controls/safeguards.py:135 | `d.get(key)` gives the value under the key when it is present, and `None` when it is absent. |
| Repeat.Repeated | chaosaddons/controls/repeat.py:75-93 | The list grows by at most one element, only at the end, and existing elements are unchanged. It grows exactly when some activity carries the context's name and the context is not stamped with the repeat count. The appended copy is the context with `iteration_index` set to 1 when absent, else to its index + 1. This covers the empty list and the no-match case. |
| Repeat.Experiment.RepeatActivity | chaosaddons/controls/repeat.py:75-93 | The reversed search loop leaves the named section equal to `Repeated` of its old list. Every other section is unchanged, and a missing section stays missing. |
| Repeat.Experiment.AfterActivityControl | chaosaddons/controls/repeat.py:47-69 | When the control breaks on a previous non-`succeeded` status, a missing status included, the experiment is unchanged. Otherwise each of the three sections becomes `Repeated` with `repeat_count - 1`. |
| Repeat.Feed | chaosaddons/controls/repeat.py:82-92 | Running the control again on each appended copy, for at most `steps` runs, keeps the original list as prefix and appends at most one copy per run. |
| Repeat.FeedStopsAtRepeatCount | chaosaddons/controls/repeat.py:85-92 | When each appended copy is fed back as the next context, a chain of `steps` runs appends `min(steps, repeatCount - Index(context))` copies, stamped with consecutive indexes after the context's, and keeps the original list as prefix. So from an unstamped activity and a decremented count n - 1 >= 1, the chain stops after n - 1 copies. |
| Repeat.FeedNeverStopsBelowTwo | chaosaddons/controls/repeat.py:88-89 | When the decremented count is one the index never meets, every step appends a copy, so the chain is unbounded. That is 0 for a count of 1, and -1 for the default count of 0. |
| Repeat.RepeatedAsDocumented | chaosaddons/controls/repeat.py:17-19 | Under the documented meaning of the count (runs including the original), a copy is appended exactly when some activity carries the context's name and the context's index is below the decremented count; the copy is stamped as in `Repeated`. |
| Repeat.FeedAsDocumented | chaosaddons/controls/repeat.py:17-19 | The feedback chain under the documented rule keeps the original list as prefix and appends at most one copy per run. |
| Repeat.FeedAsDocumentedStops | chaosaddons/controls/repeat.py:17-19 | Under the documented rule every count stops: the chain makes `max(repeatCount - Index(context), 0)` copies, so a count of n makes `max(n - 1, 0)` copies from an unstamped activity. |
| Repeat.RepeatTwiceInHypothesis | tests/test_repeat.py:40-54 | Two calls with an unstamped context and repeat count 2 grow a two-probe hypothesis list to 3 and then to 4. |
| Bypass.Bypassed | chaosaddons/controls/bypass.py:61-69 | Only `dry` is written. It is set to true exactly when the type matches a non-empty target type or the name is in a non-empty target list. Otherwise the context is unchanged. |
| Bypass.Restored | chaosaddons/controls/bypass.py:72-80 | Only `dry` is removed, under the same match condition. An absent `dry` is no error. A non-matching context is unchanged. |
| Bypass.RestoreUndoesBypass | chaosaddons/controls/bypass.py:61-80 | For a context without `dry`, restoring after bypassing with the same targets gives back the original context. |
| Bypass.BypassIsIdempotent | chaosaddons/controls/bypass.py:66-69 | Bypassing twice equals bypassing once. |
| Bypass.BeforeActivityControl | chaosaddons/controls/bypass.py:61-69 | The two in-place tests leave the context equal to `Bypassed` of the old context. |
| Bypass.AfterActivityControl | chaosaddons/controls/bypass.py:72-80 | The two in-place pops leave the context equal to `Restored` of the old context. |
| Bypass.AroundActivity | chaosaddons/controls/bypass.py:61-80 | Running the before hook and then the after hook on a context without `dry` leaves it as it was. |
| Safeguards.Classify | chaosaddons/controls/safeguards.py:134-140 | A probe is repeating exactly when its `frequency` is truthy, whatever `background` says. It runs once in the background exactly when `frequency` is falsy or absent and `background` is truthy. It blocks exactly when neither is truthy. |
| Safeguards.Count | chaosaddons/controls/safeguards.py:131-140 | A class count never exceeds the number of probes, and it is zero exactly when no probe falls in the class. |
| Safeguards.CountClasses | chaosaddons/controls/safeguards.py:131-140 | The counting loop computes, for each class, the number of probes `Classify` puts in it. |
| Safeguards.ClassesPartitionProbes | chaosaddons/controls/safeguards.py:131-140 | The three counts add up to the number of probes. |
| Safeguards.Workers | chaosaddons/controls/safeguards.py:144-146 | `count or 1` is the count when the count is positive and exactly 1 when it is zero. |
| Safeguards.Routed | chaosaddons/controls/safeguards.py:158-174 | The tasks submitted to a pool are exactly as many as the count `prepare` made for its class, and all are of that class. |
| Safeguards.PoolsPartitionProbes | chaosaddons/controls/safeguards.py:158-174 | Together the three pools receive the probe list as a multiset: every probe goes to exactly one pool. |
| Safeguards.Submit | chaosaddons/controls/safeguards.py:158-174 | The submission loop produces, for each class, the probes of that class in list order. |
| Safeguards.Resolve | chaosaddons/controls/safeguards.py:293-298 | Without a truthy `ref` the probe itself runs. With one, the activity the lookup finds runs, and the reference fails exactly when the lookup finds nothing or an empty activity. |
| Safeguards.ExecutionOf | chaosaddons/controls/safeguards.py:286-335 | A truthy `ref` the lookup cannot resolve raises a not-found error. Any other error raised by the activity escapes. Otherwise the run holds the resolved activity. Its status is `succeeded` exactly when the activity returned, with the returned output. Its status is `failed` exactly when the activity failed, with output None and the trace under `exception`. |
| Safeguards.ExecuteActivity | chaosaddons/controls/safeguards.py:286-335 | Building the run record step by step gives `ExecutionOf`. |
| Safeguards.Step | chaosaddons/controls/safeguards.py:267-283 | Once the experiment has finished, nothing changes. `Finish` sets the finished flag and nothing else. A passing check, or a check by a worker whose flag is already set, changes nothing. A failing check while the experiment runs sets the checking worker's flag, including when the experiment ends right after. It records an exit by that worker exactly when the experiment did not end meanwhile and the probe is named. No worker ever exits twice. |
| Safeguards.CheckEvent | chaosaddons/controls/safeguards.py:273-282 | The check is made by the calling worker; it passes exactly when the probe's `tolerance` accepts the run's `output`; it can name the probe exactly when the probe has a `name`. |
| Safeguards.LatchIsSticky | chaosaddons/controls/safeguards.py:277-278 | Set flags are never cleared, recorded exits are never undone, and a worker whose flag was already set never exits later. |
| Safeguards.FinishedFreezesLatch | chaosaddons/controls/safeguards.py:270-271 | After the experiment has finished, no sequence of events changes the flags, the finished flag or the exits. |
| Safeguards.EachWorkerExitsAtMostOnce | chaosaddons/controls/safeguards.py:277-283 | In any interleaving of the checks of any workers, no worker calls exit twice, and every worker that called it has its flag set. |
| Safeguards.TwoWorkersExitTwice | chaosaddons/controls/safeguards.py:105-108 | Two workers whose checks fail while the experiment runs both call exit, one after the other. |
| Safeguards.TwoFailingBlockingProbes | chaosaddons/controls/safeguards.py:254-283 | Two named blocking probes go through `prepare` and `run`. Both tasks execute and arrive, so the caller passes the barrier before any check runs. Then each fails its check on its own worker of the two-worker blocking pool, and both workers call exit. |
| Safeguards.BothBlockingTasksArrive | chaosaddons/controls/safeguards.py:254-262 | Both blocking tasks execute and arrive at the barrier, where the caller already waits. The barrier then lets all three through, and the latch is still untouched: no check has run. |
| Safeguards.BlockingCheckFails | chaosaddons/controls/safeguards.py:264-283 | Past the barrier, a named blocking probe without a reference fails its check on the k-th worker of the blocking pool. The worker's own flag was unset, so it is set and one exit is recorded for that worker. The pools and the barrier are untouched. |
| Safeguards.BothBlockingChecksFail | chaosaddons/controls/safeguards.py:264-283 | Past the barrier, the two blocking probes' failing checks on workers 0 and 1 each find their own worker's flag unset. Two exits are recorded, in order. |
| Safeguards.ExitExactlyOnFirstFailure | chaosaddons/controls/safeguards.py:277-283 | On one latch, from the start, the flag ends set exactly when the first event that is not a passing check is a failing check. Exit is then called exactly once if that check is of a named probe and is not overtaken by the end of the experiment, and never otherwise. |
| Safeguards.ExitCalledAtMostOnce | chaosaddons/controls/safeguards.py:277-279 | With one latch for all the checks, exit is called at most once in any sequence of checks and finishes. The lock around the flag (lines 107 and 115-124) implies one shared latch, and the module's documentation promises one end of the run. |
| Safeguards.RepeatingLoopShape | chaosaddons/controls/safeguards.py:236-242 | Every execution of the repeating loop starts on a turn where the stop flag is seen unset. Each execution is followed by exactly one tolerance check, except a last one that raised. |
| Safeguards.ChecksFollowRuns | chaosaddons/controls/safeguards.py:236-242 | The j-th tolerance check is made by the loop's worker on the run of the j-th execution, which completed. |
| Safeguards.Repeatedly | chaosaddons/controls/safeguards.py:232-242 | The loop never makes more executions than `Executions` counts. For a named probe it makes all of them, and the latch ends as `Replay` of the checks that `Checks` lists. It stops early only for a probe without a name, on the check that first sets its worker's flag. A probe without a name never records an exit. |
| Safeguards.Guardian.constructor | chaosaddons/controls/safeguards.py:106-108 | A new guardian has no flag set, has not seen the experiment finish, has recorded no exit, and is not prepared. |
| Safeguards.Guardian.Prepare | chaosaddons/controls/safeguards.py:126-146 | The stop flag is unset. The barrier has one party per blocking probe plus the caller, and nobody has arrived. Each pool is empty, not shut down, and has `count or 1` workers. The latch is untouched. |
| Safeguards.Guardian.Run | chaosaddons/controls/safeguards.py:148-181 | Each pool's task queue grows by `Routed` for its class, and the caller arrives at the barrier. The latch and the stop flag are untouched. |
| Safeguards.Guardian.Terminate | chaosaddons/controls/safeguards.py:196-203 | The stop flag is set and the three pools are shut down. Their tasks, the barrier and the latch are unchanged. |
| Safeguards.Guardian.ExperimentFinished | chaosaddons/controls/synchronization.py:9-10 | The finished flag is set as `Step` with `Finish` says. Nothing else changes. |
| Safeguards.Guardian.InterruptExperimentOnUnhealthyProbe | chaosaddons/controls/safeguards.py:267-283 | The latch moves as `Step` with the calling worker's check of the probe's `tolerance` against the run's `output`. The method reports `KeyError` exactly when the check sets the flag on a running experiment for a probe without a name, and then no exit is recorded. The pools, barrier and stop flag are untouched. |
| Safeguards.Guardian.RunNowArrive | chaosaddons/controls/safeguards.py:254-262 | The k-th blocking task executes its probe, giving `ExecutionOf` the probe, and arrives at the barrier whether or not the execution raised. The latch, the pools and the stop flag are untouched. |
| Safeguards.Guardian.RunNowCheck | chaosaddons/controls/safeguards.py:262-264 | Only once the barrier has let everyone through, on a worker of the blocking pool: the latch moves as `Step` with the check of a completed run. After a raised execution it is unchanged. |
| Safeguards.Guardian.RunSoon | chaosaddons/controls/safeguards.py:245-251 | On a worker of the background pool: one execution, then one tolerance check of its run if it completed. If it raised, the latch is unchanged. |
| Safeguards.Guardian.RepeatingTurn | chaosaddons/controls/safeguards.py:237-242 | One turn that starts with the stop flag unset is the first step of `Repeatedly`. When the execution or the check raised, the task ends after this one execution. Otherwise the loop goes on over the remaining turns from the new latch, and still ends within them. |
| Safeguards.Guardian.RunRepeatedly | chaosaddons/controls/safeguards.py:232-242 | On a worker of the repeating pool, the loop returns the number of executions and leaves the latch as `Repeatedly` says. The pools, barrier and stop flag are untouched. |
| Safeguards.BarrierWaitsForEveryBlockingTask | chaosaddons/controls/safeguards.py:181 | With one party per blocking task plus the caller, the caller passes the barrier exactly when it and every blocking task have arrived. |
| Safeguards.PrepareAndRun | chaosaddons/controls/safeguards.py:209-222 | After `configure_control` and `before_experiment_control`, each pool holds the routed probes and has `count or 1` workers. The barrier has one party per blocking task plus the caller. The caller passes at once exactly when there is no blocking probe. |

## Left out

- Threads, pools, `threading.Barrier`, `threading.Event` waits and timeouts, and the lock around `interrupted`. They become sequential fields and calls. Blocking at the barrier is modelled by splitting `run_now` at `done.wait()`: a task first arrives, and its check may run only once the barrier has let everyone through. Which worker thread runs a task is a parameter of the task's method.
- Worker threads are named by pool and slot. The fresh threads of the pools a second `prepare` creates reuse those names, so their flags are not reset.
- The `frequency` wait in `run_repeatedly`, the timestamps, the duration and the pauses of `execute_activity`: these are wall-clock and floating point.
- ExecutionOf: the run record it describes omits the `start`, `end` and `duration` keys the source adds in every case.
- The `controls(...)` context manager around the activity, `within_tolerance`, `run_activity`, `lookup_activity` and `exit_gracefully`: these are foreign calls. They become a `within` predicate, an `Outcome`, a lookup function and the recorded `exits`.
- Logging: `_log_finished`, bypass's `before_experiment_control` and every logger call except the one that reads the probe's name. They have no effect on state.
- Sections are values in a map, so two sections that alias one Python list are not modelled.
- Safeguards.Guardian.Run: requires a prepared guardian whose pools are not shut down and whose caller has not yet arrived. The lifecycle calls `run` once per `prepare`: `configure_control`, then `before_experiment_control`, at lines 209-222. The source would also take a second `run` after one `prepare`, because `threading.Barrier` resets once all its parties pass. That reuse of the barrier is not modelled.
- Safeguards.Guardian.RunNowCheck: does not require the worker to be free. In the source, each blocking task holds its thread at `done.wait()` (line 262) until all have arrived, so the blocking tasks run on distinct workers. The model lets two checks name one worker, and then shows only one exit for them.
- Safeguards.Guardian.Terminate: requires a prepared guardian. In the source, `terminate` before `prepare` raises `AttributeError` on `self.repeating_until` (line 200). The lifecycle always configures first, so that raise is not modelled.
- Safeguards.Guardian.RunRepeatedly: requires that the loop ends within the given turns, through the stop flag or an error. A task the stop flag never reaches runs forever in the source.
- Repeat.Experiment.RepeatActivity: requires every activity and the context to be named, and an `iteration_index`, when present, to be an integer. An activity without a name, met from the end before the first match, makes the source raise `KeyError`. So does a context without a name. Neither raise is modelled.
- Bypass.BeforeActivityControl: requires the `type` and `name` keys the hooks read. The source raises `KeyError` when they are missing.
- Safeguards.Guardian.InterruptExperimentOnUnhealthyProbe: requires an `output` key in the run, as the source indexes it directly.
- The end of the experiment between a flag being set and the finished flag being read again is the `finishedMeanwhile` parameter. Other interleavings are sequences of calls.
- Probe validation: `configure_control` does none, so there is nothing to model.
- `chaosaddons/utils/idle.py` and `chaosaddons/__init__.py` are not part of this model. One is a wall-clock polling loop and the other a version lookup.

## Findings

| source | as written | input that shows it | evidently intended | confidence | as-written member | corrected member |
|---|---|---|---|---|---|---|
| chaosaddons/controls/safeguards.py:105 | `Guardian` is thread-local, so the `interrupted` flag read and set at lines 277-278 belongs to the worker thread that runs the check, and every worker thread calls `exit_gracefully` on its own first failing check | two blocking probes that both fail their tolerance while the experiment runs; each waits at the barrier on its own worker of the blocking pool, then checks | one flag for the guardian, so that the experiment is told to exit at most once | not executed; medium | Safeguards.TwoWorkersExitTwice | Safeguards.ExitCalledAtMostOnce |
| chaosaddons/controls/repeat.py:88 | copies stop only when the context's index equals `repeat_count - 1`, and the first copy is stamped 1 | `repeat_count` of 1, or the default 0: the index never equals 0 or -1, so every run appends another copy | `repeat_count` runs including the original, so `max(repeat_count - 1, 0)` copies | not executed; medium | Repeat.FeedNeverStopsBelowTwo | Repeat.FeedAsDocumentedStops |

=== FILE: bypass.dfy ===
/** The bypass control: before an activity runs, mark it `dry` when it is of
    the targeted type or carries one of the targeted names, so that the
    runner skips it; after it ran, remove the mark again under the same test. */
module Bypass {
  import opened Values

  const Dry := "dry"

  /** `target_type` is truthy (set and non-empty). */
  predicate TypeTargeted(targetType: Option<string>)
  {
    targetType.Some? && targetType.value != ""
  }

  /** `target_names` is truthy (set and non-empty). */
  predicate NamesTargeted(targetNames: Option<seq<string>>)
  {
    targetNames.Some? && targetNames.value != []
  }

  /** The keys the hooks read are there whenever the hooks read them. */
  predicate Readable(context: Activity, targetType: Option<string>, targetNames: Option<seq<string>>)
  {
    && (TypeTargeted(targetType) ==> "type" in context)
    && (NamesTargeted(targetNames) ==> "name" in context)
  }

  /** `name in names` for a list of strings: only a string can be found in it. */
  predicate NameIn(name: Value, names: seq<string>)
  {
    name.Str? && name.s in names
  }

  /** The activity is one the control bypasses: its type is the target type,
      or its name is one of the target names. */
  predicate Matches(context: Activity, targetType: Option<string>, targetNames: Option<seq<string>>)
    requires Readable(context, targetType, targetNames)
  {
    || (TypeTargeted(targetType) && context["type"] == Str(targetType.value))
    || (NamesTargeted(targetNames) && NameIn(context["name"], targetNames.value))
  }

  /** The activity as `before_activity_control` leaves it. */
  function Bypassed(context: Activity, targetType: Option<string>, targetNames: Option<seq<string>>): (r: Activity)
    requires Readable(context, targetType, targetNames)
    ensures forall k :: k != Dry ==> (k in r <==> k in context)
    ensures forall k :: k != Dry && k in context ==> r[k] == context[k]
    ensures Dry in r <==> Dry in context || Matches(context, targetType, targetNames)
    ensures Matches(context, targetType, targetNames) ==> r[Dry] == Bool(true)
    ensures !Matches(context, targetType, targetNames) ==> r == context
  {
    if Matches(context, targetType, targetNames) then context[Dry := Bool(true)] else context
  }

  /** The activity as `after_activity_control` leaves it. */
  function Restored(context: Activity, targetType: Option<string>, targetNames: Option<seq<string>>): (r: Activity)
    requires Readable(context, targetType, targetNames)
    ensures forall k :: k != Dry ==> (k in r <==> k in context)
    ensures forall k :: k != Dry && k in context ==> r[k] == context[k]
    ensures Dry in r <==> Dry in context && !Matches(context, targetType, targetNames)
    ensures !Matches(context, targetType, targetNames) ==> r == context
  {
    if Matches(context, targetType, targetNames) then context - {Dry} else context
  }

  /** Marking leaves the type and the name alone, so the activity still
      matches afterwards; restoring then takes out exactly the mark that was
      added: a context without `dry` comes back as it was. */
  lemma RestoreUndoesBypass(context: Activity, targetType: Option<string>, targetNames: Option<seq<string>>)
    requires Readable(context, targetType, targetNames)
    requires Dry !in context
    ensures Readable(Bypassed(context, targetType, targetNames), targetType, targetNames)
    ensures Restored(Bypassed(context, targetType, targetNames), targetType, targetNames) == context
  {
  }

  /** Marking twice is marking once. */
  lemma BypassIsIdempotent(context: Activity, targetType: Option<string>, targetNames: Option<seq<string>>)
    requires Readable(context, targetType, targetNames)
    ensures Readable(Bypassed(context, targetType, targetNames), targetType, targetNames)
    ensures Bypassed(Bypassed(context, targetType, targetNames), targetType, targetNames)
         == Bypassed(context, targetType, targetNames)
  {
  }

  /** The activity dictionary the hooks receive and update in place. */
  class ActivityContext {
    var entries: Activity

    constructor (entries: Activity)
      ensures this.entries == entries
    {
      this.entries := entries;
    }
  }

  /** `before_activity_control`: set `dry` to true on a matching activity. */
  method BeforeActivityControl(context: ActivityContext, targetType: Option<string>, targetNames: Option<seq<string>>)
    requires Readable(context.entries, targetType, targetNames)
    modifies context
    ensures context.entries == Bypassed(old(context.entries), targetType, targetNames)
  {
    if TypeTargeted(targetType) && context.entries["type"] == Str(targetType.value) {
      context.entries := context.entries[Dry := Bool(true)];
    }
    if NamesTargeted(targetNames) && NameIn(context.entries["name"], targetNames.value) {
      context.entries := context.entries[Dry := Bool(true)];
    }
  }

  /** `after_activity_control`: remove `dry` from a matching activity, if it
      is there. */
  method AfterActivityControl(context: ActivityContext, targetType: Option<string>, targetNames: Option<seq<string>>)
    requires Readable(context.entries, targetType, targetNames)
    modifies context
    ensures context.entries == Restored(old(context.entries), targetType, targetNames)
  {
    if TypeTargeted(targetType) && context.entries["type"] == Str(targetType.value) {
      context.entries := context.entries - {Dry};
    }
    if NamesTargeted(targetNames) && NameIn(context.entries["name"], targetNames.value) {
      context.entries := context.entries - {Dry};
    }
  }

  /** The runner calls the two hooks around one activity: an activity that
      had no `dry` mark comes out exactly as it went in. */
  method AroundActivity(context: ActivityContext, targetType: Option<string>, targetNames: Option<seq<string>>)
    requires Readable(context.entries, targetType, targetNames)
    requires Dry !in context.entries
    modifies context
    ensures context.entries == old(context.entries)
  {
    RestoreUndoesBypass(context.entries, targetType, targetNames);
    BeforeActivityControl(context, targetType, targetNames);
    AfterActivityControl(context, targetType, targetNames);
  }
}

=== FILE: repeat.dfy ===
/** The repeat control: after an activity has run, append a copy of it to the
    experiment section it came from, stamped with an `iteration_index`, so
    that the experiment runner, which walks that section, runs it again. */
module Repeat {
  import opened Values

  const IterationIndex := "iteration_index"
  const Succeeded := Str("succeeded")

  /** The three activity lists of an experiment the control looks at:
      the steady-state hypothesis probes, the method and the rollbacks. */
  datatype Section = HypothesisProbes | Method | Rollbacks

  predicate Named(a: Activity)
  {
    "name" in a
  }

  predicate AllNamed(activities: seq<Activity>)
  {
    forall i :: 0 <= i < |activities| ==> Named(activities[i])
  }

  /** An activity the control can take as its context: it has a name, and an
      `iteration_index`, when present, is an integer. */
  predicate WellFormed(a: Activity)
  {
    Named(a) && (IterationIndex in a ==> a[IterationIndex].Int?)
  }

  /** The iteration an activity stands for; 0 for the original activity. */
  function Index(a: Activity): int
    requires WellFormed(a)
  {
    if IterationIndex in a then a[IterationIndex].i else 0
  }

  /** Some activity of the list carries this name. */
  predicate Mentions(activities: seq<Activity>, name: Value)
    requires AllNamed(activities)
  {
    exists i :: 0 <= i < |activities| && activities[i]["name"] == name
  }

  /** The context is the copy that was stamped with the last iteration. */
  predicate AtLastIteration(context: Activity, repeatCount: int)
  {
    IterationIndex in context && context[IterationIndex] == Int(repeatCount)
  }

  /** The list as `repeat_activity` leaves it. */
  function Repeated(context: Activity, activities: seq<Activity>, repeatCount: int): (r: seq<Activity>)
    requires WellFormed(context) && AllNamed(activities)
    ensures |activities| <= |r| <= |activities| + 1
    ensures r[..|activities|] == activities
    ensures |r| == |activities| + 1 <==>
              Mentions(activities, context["name"]) && !AtLastIteration(context, repeatCount)
    ensures |r| == |activities| + 1 ==>
              r[|activities|] == context[IterationIndex := Int(Index(context) + 1)]
  {
    if activities == [] || !Mentions(activities, context["name"]) then activities
    else if IterationIndex !in context then activities + [context[IterationIndex := Int(1)]]
    else if context[IterationIndex] == Int(repeatCount) then activities
    else activities + [context[IterationIndex := Int(context[IterationIndex].i + 1)]]
  }

  /** The control halts here: it was asked to stop after a failed iteration
      and the previous run did not succeed (a missing status included). */
  predicate BreaksIteration(state: Activity, breakIfPreviousIterationFailed: bool)
  {
    breakIfPreviousIterationFailed && Get(state, "status") != Succeeded
  }

  /** The experiment runner runs every activity appended to the section it is
      walking, and the control runs again after it with that copy as its
      context. `Feed` follows at most `steps` such runs of the control, the
      first with `context`, each later one with the copy appended last; it
      stops early once a run appends nothing. */
  function Feed(context: Activity, activities: seq<Activity>, repeatCount: int, steps: nat): (r: seq<Activity>)
    requires WellFormed(context) && AllNamed(activities)
    ensures |activities| <= |r| <= |activities| + steps
    ensures r[..|activities|] == activities
    decreases steps
  {
    if steps == 0 then activities
    else
      var next := Repeated(context, activities, repeatCount);
      if |next| == |activities| then activities
      else Feed(next[|activities|], next, repeatCount, steps - 1)
  }

  /** An appended copy can be fed back: the longer list is still all named,
      and the copy is a context with the same name and the next index. */
  lemma CopyFeedsBack(context: Activity, activities: seq<Activity>, copy: Activity, next: seq<Activity>)
    requires WellFormed(context) && AllNamed(activities)
    requires next == activities + [copy]
    requires copy == context[IterationIndex := Int(Index(context) + 1)]
    ensures AllNamed(next) && WellFormed(copy) && Index(copy) == Index(context) + 1
    ensures Mentions(next, copy["name"])
  {
    assert next[|activities|] == copy;
  }

  /** Stamping a copy again replaces its earlier stamp. */
  lemma Restamp(context: Activity, first: Value, second: Value)
    ensures context[IterationIndex := first][IterationIndex := second] == context[IterationIndex := second]
  {
  }

  /** Fed back this way, the copies stop once the index reaches the
      (already decremented) repeat count: starting from the original activity
      (no index) and a count `n - 1 >= 1`, exactly `n - 1` copies are made,
      stamped 1, 2, ..., `n - 1`. */
  lemma {:induction false} FeedStopsAtRepeatCount(context: Activity, activities: seq<Activity>, repeatCount: int, steps: nat)
    requires WellFormed(context) && AllNamed(activities)
    requires Mentions(activities, context["name"])
    requires Index(context) <= repeatCount
    requires IterationIndex !in context ==> 1 <= repeatCount
    ensures var r := Feed(context, activities, repeatCount, steps);
            && |r| == |activities| + (if steps <= repeatCount - Index(context) then steps else repeatCount - Index(context))
            && r[..|activities|] == activities
            && forall j :: |activities| <= j < |r| ==>
                 r[j] == context[IterationIndex := Int(Index(context) + j - |activities| + 1)]
    decreases steps
  {
    if steps > 0 {
      var next := Repeated(context, activities, repeatCount);
      if |next| != |activities| {
        var copy := next[|activities|];
        assert next == activities + [copy];
        CopyFeedsBack(context, activities, copy, next);
        FeedStopsAtRepeatCount(copy, next, repeatCount, steps - 1);
        var r := Feed(copy, next, repeatCount, steps - 1);
        assert r[..|activities|] == activities by {
          assert r[..|next|][..|activities|] == r[..|activities|];
        }
        forall j | |activities| <= j < |r|
          ensures r[j] == context[IterationIndex := Int(Index(context) + j - |activities| + 1)]
        {
          if j == |activities| {
            assert r[j] == r[..|next|][j];
          } else {
            Restamp(context, Int(Index(context) + 1), Int(Index(context) + j - |activities| + 1));
          }
        }
      } else {
        assert AtLastIteration(context, repeatCount);
      }
    }
  }

  /** With a repeat count of 1 or less (decremented to 0 from a count of 1,
      or to -1 from the default 0), the index of the copies never meets the
      count, so each run of the control appends one more copy for as long as
      the runner keeps going. */
  lemma {:induction false} FeedNeverStopsBelowTwo(context: Activity, activities: seq<Activity>, repeatCount: int, steps: nat)
    requires WellFormed(context) && AllNamed(activities)
    requires Mentions(activities, context["name"])
    requires if IterationIndex in context then repeatCount < Index(context) else repeatCount <= 0
    ensures |Feed(context, activities, repeatCount, steps)| == |activities| + steps
    decreases steps
  {
    if steps > 0 {
      var next := Repeated(context, activities, repeatCount);
      assert !AtLastIteration(context, repeatCount);
      var copy := next[|activities|];
      assert next == activities + [copy];
      CopyFeedsBack(context, activities, copy, next);
      FeedNeverStopsBelowTwo(copy, next, repeatCount, steps - 1);
    }
  }

  /** The stop rule the documentation describes: `repeat_count` runs in
      all, the original included, so a copy is appended only while the
      context's index is below the decremented count. */
  function RepeatedAsDocumented(context: Activity, activities: seq<Activity>, repeatCount: int): (r: seq<Activity>)
    requires WellFormed(context) && AllNamed(activities)
    ensures |activities| <= |r| <= |activities| + 1
    ensures r[..|activities|] == activities
    ensures |r| == |activities| + 1 <==>
              Mentions(activities, context["name"]) && Index(context) < repeatCount
    ensures |r| == |activities| + 1 ==>
              r[|activities|] == context[IterationIndex := Int(Index(context) + 1)]
  {
    if Mentions(activities, context["name"]) && Index(context) < repeatCount
    then activities + [context[IterationIndex := Int(Index(context) + 1)]]
    else activities
  }

  /** `Feed` under the documented stop rule. */
  function FeedAsDocumented(context: Activity, activities: seq<Activity>, repeatCount: int, steps: nat): (r: seq<Activity>)
    requires WellFormed(context) && AllNamed(activities)
    ensures |activities| <= |r| <= |activities| + steps
    ensures r[..|activities|] == activities
    decreases steps
  {
    if steps == 0 then activities
    else
      var next := RepeatedAsDocumented(context, activities, repeatCount);
      if |next| == |activities| then activities
      else FeedAsDocumented(next[|activities|], next, repeatCount, steps - 1)
  }

  /** Under the documented rule every count stops: from an unstamped
      activity and a count `n` (decremented to `n - 1`), the chain makes
      `max(n - 1, 0)` copies, so a count of 1, or the default 0, makes
      none. */
  lemma {:induction false} FeedAsDocumentedStops(context: Activity, activities: seq<Activity>, repeatCount: int, steps: nat)
    requires WellFormed(context) && AllNamed(activities)
    requires Mentions(activities, context["name"])
    ensures var left := if repeatCount - Index(context) < 0 then 0 else repeatCount - Index(context);
            |FeedAsDocumented(context, activities, repeatCount, steps)|
              == |activities| + (if steps <= left then steps else left)
    decreases steps
  {
    if steps > 0 && Index(context) < repeatCount {
      var next := RepeatedAsDocumented(context, activities, repeatCount);
      var copy := next[|activities|];
      assert next == activities + [copy];
      CopyFeedsBack(context, activities, copy, next);
      FeedAsDocumentedStops(copy, next, repeatCount, steps - 1);
    }
  }

  /** An experiment document, reduced to the activity lists the control
      updates in place; a section the document does not have is absent. */
  class Experiment {
    var sections: map<Section, seq<Activity>>

    /** Every activity of the experiment has a name. */
    ghost predicate Valid()
      reads this
    {
      forall s :: s in sections ==> AllNamed(sections[s])
    }

    constructor (sections: map<Section, seq<Activity>>)
      requires forall s :: s in sections ==> AllNamed(sections[s])
      ensures Valid() && this.sections == sections
    {
      this.sections := sections;
    }

    /** `repeat_activity` on one section: find, from the end, an activity
        with the context's name; if there is one, append a stamped copy of
        the context, unless the context already is the last iteration. */
    method RepeatActivity(context: Activity, section: Section, repeatCount: int)
      requires Valid() && WellFormed(context)
      modifies this
      ensures Valid()
      ensures sections.Keys == old(sections).Keys
      ensures section in sections ==>
                sections[section] == Repeated(context, old(sections)[section], repeatCount)
      ensures forall s :: s in sections && s != section ==> sections[s] == old(sections)[s]
    {
      // a missing section is read as a fresh empty list, which nothing keeps
      var activities := if section in sections then sections[section] else [];
      if |activities| == 0 {
        return;
      }
      var name := context["name"];
      var i := |activities|;
      while i > 0
        invariant 0 <= i <= |activities|
        invariant sections == old(sections)
        invariant forall j :: i <= j < |activities| ==> activities[j]["name"] != name
        decreases i
      {
        i := i - 1;
        if activities[i]["name"] == name {
          // deep copy: the context is a value, so the copy is independent
          var copy := context;
          if IterationIndex !in copy {
            copy := copy[IterationIndex := Int(1)];
          } else {
            if copy[IterationIndex] == Int(repeatCount) {
              return;
            }
            copy := copy[IterationIndex := Int(copy[IterationIndex].i + 1)];
          }
          sections := sections[section := activities + [copy]];
          assert AllNamed(activities + [copy]);
          return;
        }
      }
    }

    /** `after_activity_control`: decrement the repeat count, stop if asked
        to after a failed iteration, otherwise repeat the context in the
        hypothesis probes, the method and the rollbacks. */
    method AfterActivityControl(context: Activity, state: Activity, repeatCount: int,
                                breakIfPreviousIterationFailed: bool)
      requires Valid() && WellFormed(context)
      modifies this
      ensures Valid()
      ensures sections.Keys == old(sections).Keys
      ensures BreaksIteration(state, breakIfPreviousIterationFailed) ==> sections == old(sections)
      ensures !BreaksIteration(state, breakIfPreviousIterationFailed) ==>
                forall s :: s in sections ==>
                  sections[s] == Repeated(context, old(sections)[s], repeatCount - 1)
    {
      var count := repeatCount - 1;
      var lastStatus := Get(state, "status");
      if breakIfPreviousIterationFailed && lastStatus != Succeeded {
        return;
      }
      RepeatActivity(context, HypothesisProbes, count);
      RepeatActivity(context, Method, count);
      RepeatActivity(context, Rollbacks, count);
    }
  }

  /** The hypothesis scenario of the control's test suite: two probes, the
      second one the context, a repeat count of 2 and an empty state; the
      control runs twice with the same, unstamped context. */
  method RepeatTwiceInHypothesis() returns (lengths: seq<nat>)
    ensures lengths == [2, 3, 4]
  {
    var probeA: Activity := map["name" := Str("probe-A"), "type" := Str("probe")];
    var probeB: Activity := map["name" := Str("probe-B"), "type" := Str("probe")];
    var x := new Experiment(map[HypothesisProbes := [probeA, probeB]]);
    lengths := [|x.sections[HypothesisProbes]|];
    assert [probeA, probeB][1]["name"] == probeB["name"];
    x.AfterActivityControl(probeB, map[], 2, false);
    lengths := lengths + [|x.sections[HypothesisProbes]|];
    assert x.sections[HypothesisProbes][1]["name"] == probeB["name"];
    x.AfterActivityControl(probeB, map[], 2, false);
    lengths := lengths + [|x.sections[HypothesisProbes]|];
  }
}

=== FILE: safeguards.dfy ===
/** The safeguard supervisor (the Guardian): it classifies health-check probes
    into three scheduling classes, sizes one worker pool per class and a
    barrier for the blocking ones, submits one task per probe, and latches an
    interruption of the experiment the first time a probe misses its
    tolerance while the experiment is still running.

    Threads are not modelled: the pools are queues of submitted probes, the
    barrier is a record of who has arrived, the finished flag and the latch
    are fields, and an interleaving is a sequence of calls. */
module Safeguards {
  import opened Values

  type Probe = Activity

  /** A run record, as built by `execute_activity`. */
  type Run = Activity

  // ---------------------------------------------------------------------
  // Classification and sizing
  // ---------------------------------------------------------------------

  /** Now: run once, before the experiment starts, blocking it.
      Once: run once in the background.  Repeating: run every `frequency`. */
  datatype ProbeClass = Now | Once | Repeating

  /** A truthy `frequency` makes a probe repeating whatever `background`
      says; `background` is only looked at when there is no truthy
      frequency; `0`, `false` or an absent key count as not set. */
  function Classify(probe: Probe): (c: ProbeClass)
    ensures c == Repeating <==> Truthy(Get(probe, "frequency"))
    ensures c == Once <==> !Truthy(Get(probe, "frequency")) && Truthy(Get(probe, "background"))
    ensures c == Now <==> !Truthy(Get(probe, "frequency")) && !Truthy(Get(probe, "background"))
  {
    if Truthy(Get(probe, "frequency")) then Repeating
    else if Truthy(Get(probe, "background")) then Once
    else Now
  }

  /** How many probes of the list fall in a class. */
  function Count(probes: seq<Probe>, c: ProbeClass): (n: nat)
    ensures n <= |probes|
    ensures n == 0 <==> forall i :: 0 <= i < |probes| ==> Classify(probes[i]) != c
  {
    if probes == [] then 0
    else Count(probes[..|probes| - 1], c) + (if Classify(probes[|probes| - 1]) == c then 1 else 0)
  }

  /** The probes submitted to the pool of a class, in list order: as many as
      `prepare` counted for that class, and only probes of that class. */
  function Routed(probes: seq<Probe>, c: ProbeClass): (r: seq<Probe>)
    ensures |r| == Count(probes, c)
    ensures forall i :: 0 <= i < |r| ==> Classify(r[i]) == c
  {
    if probes == [] then []
    else
      var last := probes[|probes| - 1];
      Routed(probes[..|probes| - 1], c) + (if Classify(last) == c then [last] else [])
  }

  /** Appending a probe to the list appends it to the tasks of its own
      class and of no other. */
  lemma RoutedSnoc(probes: seq<Probe>, i: nat, c: ProbeClass)
    requires i < |probes|
    ensures Routed(probes[..i + 1], c)
            == Routed(probes[..i], c) + (if Classify(probes[i]) == c then [probes[i]] else [])
    ensures Count(probes[..i + 1], c) == Count(probes[..i], c) + (if Classify(probes[i]) == c then 1 else 0)
  {
    assert probes[..i + 1][..i] == probes[..i];
  }

  /** Classification is total and disjoint: the three counts add up to the
      number of probes. */
  lemma {:induction false} ClassesPartitionProbes(probes: seq<Probe>)
    ensures Count(probes, Now) + Count(probes, Once) + Count(probes, Repeating) == |probes|
  {
    if probes != [] {
      ClassesPartitionProbes(probes[..|probes| - 1]);
    }
  }

  /** Every probe is submitted to exactly one pool: together the three pools
      receive the probe list, each probe as often as it occurs. */
  lemma {:induction false} PoolsPartitionProbes(probes: seq<Probe>)
    ensures multiset(Routed(probes, Now)) + multiset(Routed(probes, Once))
            + multiset(Routed(probes, Repeating)) == multiset(probes)
  {
    if probes != [] {
      var n := |probes| - 1;
      var init, last := probes[..n], probes[n];
      assert multiset(probes) == multiset(init) + multiset{last} by {
        assert probes == init + [last];
      }
      PoolsPartitionProbes(init);
      RoutedMultisetSnoc(probes, Now);
      RoutedMultisetSnoc(probes, Once);
      RoutedMultisetSnoc(probes, Repeating);
      AddToOnePart(multiset(Routed(init, Now)), multiset(Routed(init, Once)), multiset(Routed(init, Repeating)),
                   multiset(init), last, Classify(last));
    }
  }

  /** The last probe of the list adds itself to the multiset of its own
      class's tasks, and nothing to the others. */
  lemma RoutedMultisetSnoc(probes: seq<Probe>, c: ProbeClass)
    requires probes != []
    ensures var last := probes[|probes| - 1];
            multiset(Routed(probes, c))
            == multiset(Routed(probes[..|probes| - 1], c)) + (if Classify(last) == c then multiset{last} else multiset{})
  {
  }

  /** Adding an element to one of three parts adds it to their sum. */
  lemma AddToOnePart(x: multiset<Probe>, y: multiset<Probe>, z: multiset<Probe>, total: multiset<Probe>,
                     e: Probe, k: ProbeClass)
    requires x + y + z == total
    ensures (x + if k == Now then multiset{e} else multiset{})
            + (y + if k == Once then multiset{e} else multiset{})
            + (z + if k == Repeating then multiset{e} else multiset{})
            == total + multiset{e}
  {
  }

  /** The counting loop of `prepare`. */
  method CountClasses(probes: seq<Probe>) returns (nowCount: nat, onceCount: nat, repeatingCount: nat)
    ensures nowCount == Count(probes, Now)
    ensures onceCount == Count(probes, Once)
    ensures repeatingCount == Count(probes, Repeating)
  {
    nowCount, onceCount, repeatingCount := 0, 0, 0;
    for i := 0 to |probes|
      invariant nowCount == Count(probes[..i], Now)
      invariant onceCount == Count(probes[..i], Once)
      invariant repeatingCount == Count(probes[..i], Repeating)
    {
      var probe := probes[i];
      RoutedSnoc(probes, i, Now);
      RoutedSnoc(probes, i, Once);
      RoutedSnoc(probes, i, Repeating);
      if Truthy(Get(probe, "frequency")) {
        repeatingCount := repeatingCount + 1;
      } else if Truthy(Get(probe, "background")) {
        onceCount := onceCount + 1;
      } else {
        nowCount := nowCount + 1;
      }
    }
    assert probes[..|probes|] == probes;
  }

  /** The submission loop of `run`: each probe goes to the pool its
      `frequency` and `background` select, in list order. */
  method Submit(probes: seq<Probe>) returns (nowTasks: seq<Probe>, onceTasks: seq<Probe>, repeatingTasks: seq<Probe>)
    ensures nowTasks == Routed(probes, Now)
    ensures onceTasks == Routed(probes, Once)
    ensures repeatingTasks == Routed(probes, Repeating)
  {
    nowTasks, onceTasks, repeatingTasks := [], [], [];
    for i := 0 to |probes|
      invariant nowTasks == Routed(probes[..i], Now)
      invariant onceTasks == Routed(probes[..i], Once)
      invariant repeatingTasks == Routed(probes[..i], Repeating)
    {
      var p := probes[i];
      RoutedSnoc(probes, i, Now);
      RoutedSnoc(probes, i, Once);
      RoutedSnoc(probes, i, Repeating);
      if Truthy(Get(p, "frequency")) {
        repeatingTasks := repeatingTasks + [p];
      } else if Truthy(Get(p, "background")) {
        onceTasks := onceTasks + [p];
      } else {
        nowTasks := nowTasks + [p];
      }
    }
    assert probes[..|probes|] == probes;
  }

  /** `count or 1`: a pool has a worker per probe of its class, and at least
      one, so that it exists and can be shut down when the class is empty. */
  function Workers(count: nat): (w: nat)
    ensures 1 <= w && count <= w
    ensures 0 < count ==> w == count
    ensures count == 0 ==> w == 1
  {
    if count == 0 then 1 else count
  }

  // ---------------------------------------------------------------------
  // Executing a probe
  // ---------------------------------------------------------------------

  /** What running the activity did: returned a value, raised the runner's
      "activity failed" error (with its formatted trace), or raised anything
      else. */
  datatype Outcome = Returned(output: Value) | ActivityFailed(trace: Value) | OtherError

  /** The errors `execute_activity` lets escape. */
  datatype Failure = ReferenceNotFound(ref: Value) | UnexpectedError

  datatype Execution = Completed(run: Run) | Raised(failure: Failure)

  /** The activity actually run: the probe itself, or, when it has a truthy
      `ref`, the activity the lookup finds for it; `None` when the lookup
      finds nothing (or an empty activity). */
  function Resolve(probe: Probe, lookup: Value -> Option<Probe>): (r: Option<Probe>)
    ensures !Truthy(Get(probe, "ref")) ==> r == Some(probe)
    ensures Truthy(Get(probe, "ref")) ==>
              (r.Some? <==> lookup(Get(probe, "ref")).Some? && lookup(Get(probe, "ref")).value != map[])
    ensures Truthy(Get(probe, "ref")) && r.Some? ==> r == lookup(Get(probe, "ref"))
  {
    var ref := Get(probe, "ref");
    if !Truthy(ref) then Some(probe)
    else
      match lookup(ref)
      case None => None
      case Some(found) => if found == map[] then None else Some(found)
  }

  /** What `execute_activity` produces for a probe. */
  function ExecutionOf(probe: Probe, lookup: Value -> Option<Probe>, outcome: Outcome): (e: Execution)
    ensures e == Raised(ReferenceNotFound(Get(probe, "ref"))) <==> Resolve(probe, lookup) == None
    ensures e == Raised(UnexpectedError) <==> Resolve(probe, lookup) != None && outcome == OtherError
    ensures e.Completed? ==>
              && e.run.Keys == {"activity", "output", "status"}
                               + (if outcome.ActivityFailed? then {"exception"} else {})
              && e.run["activity"] == Dict(Resolve(probe, lookup).value)
              && (e.run["status"] == Str("succeeded") <==> outcome.Returned?)
              && (e.run["status"] == Str("failed") <==> outcome.ActivityFailed?)
              && e.run["output"] == (if outcome.Returned? then outcome.output else Null)
              && (outcome.ActivityFailed? ==> e.run["exception"] == outcome.trace)
  {
    match Resolve(probe, lookup)
    case None => Raised(ReferenceNotFound(Get(probe, "ref")))
    case Some(activity) =>
      match outcome
      case Returned(v) =>
        Completed(map["activity" := Dict(activity), "output" := v, "status" := Str("succeeded")])
      case ActivityFailed(trace) =>
        Completed(map["activity" := Dict(activity), "output" := Null, "status" := Str("failed"),
                      "exception" := trace])
      case OtherError => Raised(UnexpectedError)
  }

  /** `execute_activity`: resolve a reference, then build the run record
      step by step around the call of the activity. */
  method ExecuteActivity(probe: Probe, lookup: Value -> Option<Probe>, outcome: Outcome) returns (e: Execution)
    ensures e == ExecutionOf(probe, lookup, outcome)
  {
    var activity := probe;
    var ref := Get(probe, "ref");
    if Truthy(ref) {
      var found := lookup(ref);
      if found == None || found.value == map[] {
        return Raised(ReferenceNotFound(ref));
      }
      activity := found.value;
    }
    var run: Run := map["activity" := Dict(activity), "output" := Null];
    var result := Null;
    match outcome {
      case Returned(v) =>
        result := v;
        run := run["output" := result];
        run := run["status" := Str("succeeded")];
      case ActivityFailed(trace) =>
        run := run["status" := Str("failed")];
        run := run["output" := result];
        run := run["exception" := trace];
      case OtherError =>
        return Raised(UnexpectedError);
    }
    return Completed(run);
  }

  // ---------------------------------------------------------------------
  // The interruption latch
  // ---------------------------------------------------------------------

  /** A worker thread: the pool it belongs to and its slot among the pool's
      workers.  The guardian is a thread-local object, so every worker
      thread has an `interrupted` flag of its own. */
  datatype Worker = Worker(pool: ProbeClass, slot: nat)

  /** The workers whose own `interrupted` flag is set, the experiment's
      finished flag (one for the whole process), and the workers that told
      the experiment to exit, in order. */
  datatype LatchState = LatchState(interrupted: set<Worker>, finished: bool, exits: seq<Worker>)

  const Initial := LatchState({}, false, [])

  /** A tolerance check made by a worker after a run: whether the output
      was within tolerance, whether the experiment finishes between the
      flag being set and the finished flag being read again, and whether
      the probe has the `name` the exit message reads. Or the end of the
      experiment, signalled by the lifecycle. */
  datatype LatchEvent =
    | ToleranceCheck(worker: Worker, tolerated: bool, finishedMeanwhile: bool, named: bool)
    | Finish

  predicate Passing(e: LatchEvent)
  {
    e.ToleranceCheck? && e.tolerated
  }

  predicate Failing(e: LatchEvent)
  {
    e.ToleranceCheck? && !e.tolerated
  }

  /** The check sets its worker's flag: it fails while the experiment runs
      and finds the flag unset. */
  predicate Latches(s: LatchState, e: LatchEvent)
  {
    Failing(e) && !s.finished && e.worker !in s.interrupted
  }

  /** The check raises `KeyError` on the probe's missing name, after setting
      the flag and before the exit. */
  predicate RaisesKeyError(s: LatchState, e: LatchEvent)
  {
    Latches(s, e) && !e.finishedMeanwhile && !e.named
  }

  /** Every worker that told the experiment to exit has its flag set, and
      none did so twice. */
  predicate LatchInv(s: LatchState)
  {
    && (forall i :: 0 <= i < |s.exits| ==> s.exits[i] in s.interrupted)
    && (forall i, j :: 0 <= i < j < |s.exits| ==> s.exits[i] != s.exits[j])
  }

  /** The effect of one event on the latch. */
  function Step(s: LatchState, e: LatchEvent): (r: LatchState)
    ensures s.finished ==> r == s
    ensures e == Finish ==> r == s.(finished := true)
    ensures Passing(e) || (e.ToleranceCheck? && e.worker in s.interrupted) ==> r == s
    ensures Latches(s, e) ==>
              r.interrupted == s.interrupted + {e.worker} && r.finished == e.finishedMeanwhile
    ensures r.exits == s.exits + (if Latches(s, e) && !e.finishedMeanwhile && e.named then [e.worker] else [])
    ensures LatchInv(s) ==> LatchInv(r)
  {
    match e
    case Finish => s.(finished := true)
    case ToleranceCheck(worker, tolerated, finishedMeanwhile, named) =>
      if s.finished || tolerated || worker in s.interrupted then s
      else
        var latched := s.(interrupted := s.interrupted + {worker}, finished := finishedMeanwhile);
        // without a name, the exit message raises before the exit
        if latched.finished || !named then latched else latched.(exits := s.exits + [worker])
  }

  /** The effect of a sequence of events. */
  function Replay(s: LatchState, events: seq<LatchEvent>): (r: LatchState)
    decreases |events|
  {
    if events == [] then s else Replay(Step(s, events[0]), events[1..])
  }

  /** Flags, once set, stay set, and a worker whose flag was already set
      never tells the experiment to exit. */
  lemma {:induction false} LatchIsSticky(s: LatchState, events: seq<LatchEvent>)
    ensures s.interrupted <= Replay(s, events).interrupted
    ensures s.exits <= Replay(s, events).exits
    ensures forall i :: |s.exits| <= i < |Replay(s, events).exits| ==> Replay(s, events).exits[i] !in s.interrupted
    decreases |events|
  {
    if events != [] {
      LatchIsSticky(Step(s, events[0]), events[1..]);
    }
  }

  /** Once the experiment has finished, nothing changes any more. */
  lemma {:induction false} FinishedFreezesLatch(s: LatchState, events: seq<LatchEvent>)
    requires s.finished
    ensures Replay(s, events) == s
    decreases |events|
  {
    if events != [] {
      FinishedFreezesLatch(Step(s, events[0]), events[1..]);
    }
  }

  /** In any interleaving of the checks of any workers, no worker tells the
      experiment to exit twice, and each one that does has its flag set. */
  lemma {:induction false} EachWorkerExitsAtMostOnce(s: LatchState, events: seq<LatchEvent>)
    requires LatchInv(s)
    ensures LatchInv(Replay(s, events))
    decreases |events|
  {
    if events != [] {
      EachWorkerExitsAtMostOnce(Step(s, events[0]), events[1..]);
    }
  }

  /** Two workers whose probes fail while the experiment runs: each finds
      its own flag unset, so the experiment is told to exit twice. */
  lemma TwoWorkersExitTwice(a: Worker, b: Worker)
    requires a != b
    ensures Replay(Initial, [ToleranceCheck(a, false, false, true), ToleranceCheck(b, false, false, true)]).exits
            == [a, b]
  {
    var events := [ToleranceCheck(a, false, false, true), ToleranceCheck(b, false, false, true)];
    var first := Step(Initial, events[0]);
    assert first == LatchState({a}, false, [a]);
    assert events[1..] == [events[1]];
    assert Step(first, events[1]) == LatchState({a, b}, false, [a, b]);
    assert Replay(Initial, events) == Replay(first, events[1..]);
    assert Replay(first, events[1..]) == Replay(Step(first, events[1]), events[1..][1..]);
    assert events[1..][1..] == [];
  }

  /** The same events with every check made against the flag of `w`: one
      latch shared by all the checks. */
  function OnOneLatch(events: seq<LatchEvent>, w: Worker): (r: seq<LatchEvent>)
    ensures |r| == |events|
    ensures forall i :: 0 <= i < |r| ==> Passing(r[i]) == Passing(events[i]) && Failing(r[i]) == Failing(events[i])
    decreases |events|
  {
    if events == [] then []
    else [if events[0].ToleranceCheck? then events[0].(worker := w) else events[0]] + OnOneLatch(events[1..], w)
  }

  /** Every event before position `i` is a passing check: the event at `i`
      is the first one that can change anything. */
  predicate FirstDecisive(events: seq<LatchEvent>, i: int)
  {
    0 <= i < |events| && forall j :: 0 <= j < i ==> Passing(events[j])
  }

  /** The first decisive event is a failing check. */
  predicate LatchTriggered(events: seq<LatchEvent>)
  {
    exists i :: 0 <= i < |events| && FirstDecisive(events, i) && Failing(events[i])
  }

  /** The first decisive event is a failing check of a named probe that the
      end of the experiment does not overtake. */
  predicate ExitTriggered(events: seq<LatchEvent>)
  {
    exists i :: 0 <= i < |events| && FirstDecisive(events, i) && Failing(events[i]) && !events[i].finishedMeanwhile && events[i].named
  }

  /** A passing check in front shifts the first decisive event by one. */
  lemma ShiftDecisive(events: seq<LatchEvent>, i: int)
    requires events != [] && Passing(events[0]) && 0 <= i
    ensures FirstDecisive(events, i + 1) <==> FirstDecisive(events[1..], i)
  {
    if FirstDecisive(events[1..], i) {
      forall j | 0 <= j < i + 1
        ensures Passing(events[j])
      {
        if j > 0 {
          assert events[j] == events[1..][j - 1];
        }
      }
    }
    if FirstDecisive(events, i + 1) {
      forall j | 0 <= j < i
        ensures Passing(events[1..][j])
      {
        assert events[1..][j] == events[j + 1];
      }
    }
  }

  /** A passing check in front changes neither trigger. */
  lemma ShiftTriggers(events: seq<LatchEvent>)
    requires events != [] && Passing(events[0])
    ensures LatchTriggered(events) <==> LatchTriggered(events[1..])
    ensures ExitTriggered(events) <==> ExitTriggered(events[1..])
  {
    var rest := events[1..];
    if LatchTriggered(events) || ExitTriggered(events) {
      var i :| 0 <= i < |events| && FirstDecisive(events, i) && Failing(events[i]);
      assert i != 0;
      ShiftDecisive(events, i - 1);
      assert rest[i - 1] == events[i];
    }
    if LatchTriggered(rest) {
      var i :| 0 <= i < |rest| && FirstDecisive(rest, i) && Failing(rest[i]);
      ShiftDecisive(events, i);
      assert events[i + 1] == rest[i];
    }
    if ExitTriggered(rest) {
      var i :| 0 <= i < |rest| && FirstDecisive(rest, i) && Failing(rest[i]) && !rest[i].finishedMeanwhile && rest[i].named;
      ShiftDecisive(events, i);
      assert events[i + 1] == rest[i];
    }
  }

  /** Any event but a passing check in front decides both triggers. */
  lemma DecidedByHead(events: seq<LatchEvent>)
    requires events != [] && !Passing(events[0])
    ensures LatchTriggered(events) <==> Failing(events[0])
    ensures ExitTriggered(events) <==> Failing(events[0]) && !events[0].finishedMeanwhile && events[0].named
  {
    assert FirstDecisive(events, 0);
  }

  /** With a worker's flag set, checks against that flag change nothing but
      what the end of the experiment changes. */
  lemma {:induction false} OneLatchStaysSet(s: LatchState, events: seq<LatchEvent>, w: Worker)
    requires w in s.interrupted
    ensures Replay(s, OnOneLatch(events, w)).interrupted == s.interrupted
    ensures Replay(s, OnOneLatch(events, w)).exits == s.exits
    decreases |events|
  {
    if events != [] {
      var one := OnOneLatch(events, w);
      assert one[1..] == OnOneLatch(events[1..], w);
      OneLatchStaysSet(Step(s, one[0]), events[1..], w);
    }
  }

  /** On one latch (the checks of one worker thread, or every check if the
      flag were shared), the flag ends set exactly when the first decisive
      event is a failing check, and the experiment is told to exit exactly
      once if that check is of a named probe and not overtaken by the end
      of the experiment, and never otherwise. */
  lemma {:induction false} ExitExactlyOnFirstFailure(events: seq<LatchEvent>, w: Worker)
    ensures Replay(Initial, OnOneLatch(events, w)).interrupted == if LatchTriggered(events) then {w} else {}
    ensures Replay(Initial, OnOneLatch(events, w)).exits == if ExitTriggered(events) then [w] else []
    decreases |events|
  {
    if events == [] {
      return;
    }
    var e, rest := events[0], events[1..];
    var one := OnOneLatch(events, w);
    assert one[0] == if e.ToleranceCheck? then e.(worker := w) else e;
    assert one[1..] == OnOneLatch(rest, w);
    var s := Step(Initial, one[0]);
    if Passing(e) {
      ExitExactlyOnFirstFailure(rest, w);
      ShiftTriggers(events);
    } else {
      DecidedByHead(events);
      if s.finished {
        FinishedFreezesLatch(s, one[1..]);
      } else {
        OneLatchStaysSet(s, rest, w);
      }
    }
  }

  /** With one latch for all the checks, as the lock around the flag
      implies, the experiment is told to exit at most once: the run ends
      once, as the module's documentation describes. */
  lemma ExitCalledAtMostOnce(events: seq<LatchEvent>, w: Worker)
    ensures |Replay(Initial, OnOneLatch(events, w)).exits| <= 1
  {
    ExitExactlyOnFirstFailure(events, w);
  }

  /** The tolerance check a worker makes after a run of a probe: the probe's
      own `tolerance` against the run's output. */
  function CheckEvent(probe: Probe, run: Run, within: (Value, Value) -> bool, worker: Worker,
                      finishedMeanwhile: bool): (e: LatchEvent)
    ensures e.ToleranceCheck? && e.worker == worker && e.finishedMeanwhile == finishedMeanwhile
    ensures e.tolerated <==> within(Get(probe, "tolerance"), Get(run, "output"))
    ensures e.named <==> "name" in probe
  {
    ToleranceCheck(worker, within(Get(probe, "tolerance"), Get(run, "output")), finishedMeanwhile, "name" in probe)
  }

  // ---------------------------------------------------------------------
  // The repeating task
  // ---------------------------------------------------------------------

  /** One turn of the repeating loop: whether the stop flag is seen set at
      the loop head, what the activity does if it runs, and whether the
      experiment finishes in the middle of the tolerance check. */
  datatype Tick = Tick(stopSet: bool, outcome: Outcome, finishedMeanwhile: bool)

  /** The loop ends within the observed turns: the stop flag is seen set,
      or an execution raises and ends the task. */
  predicate EndsWithin(probe: Probe, lookup: Value -> Option<Probe>, ticks: seq<Tick>)
  {
    exists i :: 0 <= i < |ticks| &&
      (ticks[i].stopSet || ExecutionOf(probe, lookup, ticks[i].outcome).Raised?)
  }

  /** How many executions the loop starts when no check raises. */
  function Executions(probe: Probe, lookup: Value -> Option<Probe>, ticks: seq<Tick>): (n: nat)
  {
    if ticks == [] || ticks[0].stopSet then 0
    else if ExecutionOf(probe, lookup, ticks[0].outcome).Raised? then 1
    else 1 + Executions(probe, lookup, ticks[1..])
  }

  /** The tolerance checks the loop makes when none raises, in order. */
  function Checks(probe: Probe, lookup: Value -> Option<Probe>, within: (Value, Value) -> bool, worker: Worker,
                  ticks: seq<Tick>): (checks: seq<LatchEvent>)
  {
    if ticks == [] || ticks[0].stopSet then []
    else
      match ExecutionOf(probe, lookup, ticks[0].outcome)
      case Raised(_) => []
      case Completed(run) =>
        [CheckEvent(probe, run, within, worker, ticks[0].finishedMeanwhile)]
        + Checks(probe, lookup, within, worker, ticks[1..])
  }

  /** A new execution starts only when the stop flag was seen unset at the
      loop head, and each execution is followed by exactly one tolerance
      check, except one that raised, which ends the task. */
  lemma {:induction false} RepeatingLoopShape(probe: Probe, lookup: Value -> Option<Probe>,
                                              within: (Value, Value) -> bool, worker: Worker, ticks: seq<Tick>)
    ensures var n := Executions(probe, lookup, ticks);
            && n <= |ticks|
            && (forall j :: 0 <= j < n ==> !ticks[j].stopSet)
            && n - 1 <= |Checks(probe, lookup, within, worker, ticks)| <= n
    ensures var n, checks := Executions(probe, lookup, ticks), Checks(probe, lookup, within, worker, ticks);
            |checks| < n ==> ExecutionOf(probe, lookup, ticks[n - 1].outcome).Raised?
    decreases |ticks|
  {
    if ticks != [] && !ticks[0].stopSet && ExecutionOf(probe, lookup, ticks[0].outcome).Completed? {
      var rest := ticks[1..];
      RepeatingLoopShape(probe, lookup, within, worker, rest);
      assert forall j :: 0 < j < |ticks| ==> ticks[j] == rest[j - 1];
    }
  }

  /** The j-th check is made by the loop's worker on the run of the j-th
      turn, which completed. */
  lemma {:induction false} ChecksFollowRuns(probe: Probe, lookup: Value -> Option<Probe>,
                                            within: (Value, Value) -> bool, worker: Worker, ticks: seq<Tick>)
    ensures var checks := Checks(probe, lookup, within, worker, ticks);
            forall j :: 0 <= j < |checks| ==>
              && j < |ticks|
              && ExecutionOf(probe, lookup, ticks[j].outcome).Completed?
              && checks[j] == CheckEvent(probe, ExecutionOf(probe, lookup, ticks[j].outcome).run,
                                         within, worker, ticks[j].finishedMeanwhile)
    decreases |ticks|
  {
    if ticks != [] && !ticks[0].stopSet && ExecutionOf(probe, lookup, ticks[0].outcome).Completed? {
      var rest := ticks[1..];
      ChecksFollowRuns(probe, lookup, within, worker, rest);
      RepeatingLoopShape(probe, lookup, within, worker, ticks);
      var checks := Checks(probe, lookup, within, worker, ticks);
      assert forall j :: 0 < j < |ticks| ==> ticks[j] == rest[j - 1];
      assert forall j :: 0 < j < |checks| ==> checks[j] == Checks(probe, lookup, within, worker, rest)[j - 1];
    }
  }

  /** What the loop does from latch state `s`: the executions it starts and
      the latch it leaves. A check that raises `KeyError` ends it. */
  function Repeatedly(s: LatchState, probe: Probe, lookup: Value -> Option<Probe>,
                      within: (Value, Value) -> bool, worker: Worker, ticks: seq<Tick>): (r: (nat, LatchState))
    ensures r.0 <= Executions(probe, lookup, ticks)
    ensures "name" in probe ==>
              r == (Executions(probe, lookup, ticks), Replay(s, Checks(probe, lookup, within, worker, ticks)))
    ensures r.0 < Executions(probe, lookup, ticks) ==>
              "name" !in probe && worker !in s.interrupted && worker in r.1.interrupted
    ensures "name" !in probe ==> r.1.exits == s.exits
    decreases |ticks|
  {
    if ticks == [] || ticks[0].stopSet then (0, s)
    else
      match ExecutionOf(probe, lookup, ticks[0].outcome)
      case Raised(_) => (1, s)
      case Completed(run) =>
        var e := CheckEvent(probe, run, within, worker, ticks[0].finishedMeanwhile);
        if RaisesKeyError(s, e) then (1, Step(s, e))
        else
          var next := Repeatedly(Step(s, e), probe, lookup, within, worker, ticks[1..]);
          assert ([e] + Checks(probe, lookup, within, worker, ticks[1..]))[1..]
              == Checks(probe, lookup, within, worker, ticks[1..]);
          (1 + next.0, next.1)
  }

  /** The loop ends within the turns left after a turn that did not end it. */
  lemma StillEndsWithin(probe: Probe, lookup: Value -> Option<Probe>, ticks: seq<Tick>)
    requires ticks != [] && !ticks[0].stopSet && ExecutionOf(probe, lookup, ticks[0].outcome).Completed?
    requires EndsWithin(probe, lookup, ticks)
    ensures 1 < |ticks| && EndsWithin(probe, lookup, ticks[1..])
  {
    var j :| 0 <= j < |ticks| && (ticks[j].stopSet || ExecutionOf(probe, lookup, ticks[j].outcome).Raised?);
    assert j != 0;
    assert ticks[1..][j - 1] == ticks[j];
  }

  /** One turn of the loop that completes its execution. */
  lemma RunsOneTurn(s: LatchState, probe: Probe, lookup: Value -> Option<Probe>, within: (Value, Value) -> bool,
                    worker: Worker, ticks: seq<Tick>)
    requires ticks != [] && !ticks[0].stopSet && ExecutionOf(probe, lookup, ticks[0].outcome).Completed?
    ensures var e := CheckEvent(probe, ExecutionOf(probe, lookup, ticks[0].outcome).run, within, worker,
                                ticks[0].finishedMeanwhile);
            var next := Repeatedly(Step(s, e), probe, lookup, within, worker, ticks[1..]);
            Repeatedly(s, probe, lookup, within, worker, ticks)
              == if RaisesKeyError(s, e) then (1, Step(s, e)) else (1 + next.0, next.1)
  {
    var run := ExecutionOf(probe, lookup, ticks[0].outcome).run;
    assert ExecutionOf(probe, lookup, ticks[0].outcome) == Completed(run);
    var e := CheckEvent(probe, run, within, worker, ticks[0].finishedMeanwhile);
    if RaisesKeyError(s, e) {
      assert Repeatedly(s, probe, lookup, within, worker, ticks) == (1, Step(s, e));
    } else {
      var next := Repeatedly(Step(s, e), probe, lookup, within, worker, ticks[1..]);
      assert Repeatedly(s, probe, lookup, within, worker, ticks) == (1 + next.0, next.1);
    }
  }

  /** A turn whose execution raises ends the loop and leaves the latch. */
  lemma RaisedTurn(s: LatchState, probe: Probe, lookup: Value -> Option<Probe>, within: (Value, Value) -> bool,
                   worker: Worker, ticks: seq<Tick>)
    requires ticks != [] && !ticks[0].stopSet && ExecutionOf(probe, lookup, ticks[0].outcome).Raised?
    ensures Repeatedly(s, probe, lookup, within, worker, ticks) == (1, s)
  {
  }

  /** A completed turn, told by the latch it leaves and whether its check
      raised: the loop ends there if it raised, and otherwise goes on over
      the turns left from that latch. */
  lemma TurnOutcome(s: LatchState, after: LatchState, probe: Probe, lookup: Value -> Option<Probe>,
                    within: (Value, Value) -> bool, worker: Worker, ticks: seq<Tick>, raised: bool)
    requires ticks != [] && !ticks[0].stopSet && ExecutionOf(probe, lookup, ticks[0].outcome).Completed?
    requires EndsWithin(probe, lookup, ticks)
    requires var e := CheckEvent(probe, ExecutionOf(probe, lookup, ticks[0].outcome).run, within, worker,
                                 ticks[0].finishedMeanwhile);
             after == Step(s, e) && (raised <==> RaisesKeyError(s, e))
    ensures raised ==> Repeatedly(s, probe, lookup, within, worker, ticks) == (1, after)
    ensures !raised ==> 1 < |ticks| && EndsWithin(probe, lookup, ticks[1..])
    ensures !raised ==>
              var next := Repeatedly(after, probe, lookup, within, worker, ticks[1..]);
              Repeatedly(s, probe, lookup, within, worker, ticks) == (1 + next.0, next.1)
  {
    var e := CheckEvent(probe, ExecutionOf(probe, lookup, ticks[0].outcome).run, within, worker,
                        ticks[0].finishedMeanwhile);
    StillEndsWithin(probe, lookup, ticks);
    RunsOneTurn(s, probe, lookup, within, worker, ticks);
    assert after == Step(s, e) && (raised <==> RaisesKeyError(s, e));
  }

  /** A turn that ends the loop: the stop flag is seen set, or the
      execution raises. */
  lemma LastTick(s: LatchState, probe: Probe, lookup: Value -> Option<Probe>, within: (Value, Value) -> bool,
                 worker: Worker, ticks: seq<Tick>, i: nat)
    requires i < |ticks|
    ensures ticks[i].stopSet ==> Repeatedly(s, probe, lookup, within, worker, ticks[i..]) == (0, s)
    ensures !ticks[i].stopSet && ExecutionOf(probe, lookup, ticks[i].outcome).Raised? ==>
              Repeatedly(s, probe, lookup, within, worker, ticks[i..]) == (1, s)
  {
    assert ticks[i..][0] == ticks[i];
  }

  // ---------------------------------------------------------------------
  // The supervisor
  // ---------------------------------------------------------------------

  /** A worker pool: its number of workers, the probes submitted to it in
      order, and whether it was shut down. */
  datatype Pool = Pool(workers: nat, tasks: seq<Probe>, shutDown: bool)

  /** The barrier blocking probes and the caller of `run` meet at: its
      number of parties, the blocking tasks (by position in the pool) that
      have arrived, and whether the caller has. */
  datatype Barrier = Barrier(parties: nat, arrived: set<nat>, callerArrived: bool)

  class Guardian {
    // the workers whose own, thread-local `interrupted` flag is set
    var interrupted: set<Worker>
    // the experiment's finished flag, set by the lifecycle
    var finished: bool
    // the workers that told the experiment to exit gracefully, in order
    var exits: seq<Worker>

    // what `prepare` creates
    var prepared: bool
    var repeatingUntil: bool
    var nowAllDone: Barrier
    var now: Pool
    var once: Pool
    var repeating: Pool

    function Latch(): (latch: LatchState)
      reads this
    {
      LatchState(interrupted, finished, exits)
    }

    function Resources(): (r: (bool, bool, Barrier, Pool, Pool, Pool))
      reads this
    {
      (prepared, repeatingUntil, nowAllDone, now, once, repeating)
    }

    /** No worker exits twice, and only submitted blocking tasks arrive at
        the barrier. */
    ghost predicate Valid()
      reads this
    {
      && LatchInv(Latch())
      && forall k :: k in nowAllDone.arrived ==> k < |now.tasks|
    }

    /** The caller of `run` gets past the barrier. */
    predicate BarrierPassed()
      reads this
    {
      |nowAllDone.arrived| + (if nowAllDone.callerArrived then 1 else 0) == nowAllDone.parties
    }

    constructor ()
      ensures Valid() && Latch() == Initial && !prepared
    {
      interrupted := {};
      finished := false;
      exits := [];
      prepared := false;
      repeatingUntil := false;
      nowAllDone := Barrier(0, {}, false);
      now, once, repeating := Pool(0, [], false), Pool(0, [], false), Pool(0, [], false);
    }

    /** `prepare`: count the probes of each class, then make the stop flag,
        the barrier (one party per blocking probe plus the caller) and the
        three pools. */
    method Prepare(probes: seq<Probe>)
      requires Valid()
      modifies this
      ensures Valid() && Latch() == old(Latch())
      ensures prepared && !repeatingUntil
      ensures nowAllDone == Barrier(Count(probes, Now) + 1, {}, false)
      ensures now == Pool(Workers(Count(probes, Now)), [], false)
      ensures once == Pool(Workers(Count(probes, Once)), [], false)
      ensures repeating == Pool(Workers(Count(probes, Repeating)), [], false)
    {
      var nowCount, onceCount, repeatingCount := CountClasses(probes);
      repeatingUntil, prepared := false, true;
      nowAllDone := Barrier(nowCount + 1, {}, false);
      now, once, repeating := Pool(Workers(nowCount), [], false), Pool(Workers(onceCount), [], false),
                              Pool(Workers(repeatingCount), [], false);
    }

    /** `run`: submit one task per probe to the pool of its class, then
        arrive at the barrier. */
    method Run(probes: seq<Probe>)
      requires Valid() && prepared && !nowAllDone.callerArrived
      requires !now.shutDown && !once.shutDown && !repeating.shutDown
      modifies this
      ensures Valid() && Latch() == old(Latch())
      ensures prepared == old(prepared) && repeatingUntil == old(repeatingUntil)
      ensures now == old(now).(tasks := old(now.tasks) + Routed(probes, Now))
      ensures once == old(once).(tasks := old(once.tasks) + Routed(probes, Once))
      ensures repeating == old(repeating).(tasks := old(repeating.tasks) + Routed(probes, Repeating))
      ensures nowAllDone == old(nowAllDone).(callerArrived := true)
    {
      var nowTasks, onceTasks, repeatingTasks := Submit(probes);
      now := now.(tasks := now.tasks + nowTasks);
      once := once.(tasks := once.tasks + onceTasks);
      repeating := repeating.(tasks := repeating.tasks + repeatingTasks);
      // wait for all probes that must run first
      nowAllDone := nowAllDone.(callerArrived := true);
    }

    /** `terminate`: set the stop flag and shut the three pools down. */
    method Terminate()
      requires Valid() && prepared
      modifies this
      ensures Valid() && Latch() == old(Latch())
      ensures repeatingUntil && prepared && nowAllDone == old(nowAllDone)
      ensures now == old(now).(shutDown := true)
      ensures once == old(once).(shutDown := true)
      ensures repeating == old(repeating).(shutDown := true)
    {
      repeatingUntil := true;
      now := now.(shutDown := true);
      repeating := repeating.(shutDown := true);
      once := once.(shutDown := true);
    }

    /** The lifecycle signals that the experiment has finished. */
    method ExperimentFinished()
      requires Valid()
      modifies this
      ensures Valid() && Latch() == Step(old(Latch()), Finish)
      ensures Resources() == old(Resources())
    {
      finished := true;
    }

    /** `interrupt_experiment_on_unhealthy_probe`, on a worker thread: unless
        the experiment has finished, check the run's output against the
        probe's tolerance; on a failure that finds the worker's own flag
        unset, set it and, unless the experiment finished in the meantime,
        name the probe and tell the experiment to exit. Returns whether
        naming the probe raised `KeyError`. */
    method InterruptExperimentOnUnhealthyProbe(probe: Probe, run: Run, within: (Value, Value) -> bool,
                                               worker: Worker, finishedMeanwhile: bool) returns (raised: bool)
      requires Valid() && "output" in run
      modifies this
      ensures Valid()
      ensures Latch() == Step(old(Latch()), CheckEvent(probe, run, within, worker, finishedMeanwhile))
      ensures raised <==> RaisesKeyError(old(Latch()), CheckEvent(probe, run, within, worker, finishedMeanwhile))
      ensures Resources() == old(Resources())
    {
      if finished {
        return false;
      }
      var tolerance := Get(probe, "tolerance");
      var checked := within(tolerance, run["output"]);
      if !checked && worker !in interrupted {
        interrupted := interrupted + {worker};
        // the lifecycle may set the finished flag right here
        if finishedMeanwhile {
          finished := true;
        }
        if !finished {
          if "name" !in probe {
            // the exit message reads `probe["name"]`
            return true;
          }
          exits := exits + [worker];
        }
      }
      return false;
    }

    /** `run_now` up to its `finally`, for the k-th task of the blocking
        pool: execute the probe, then arrive at the barrier whatever the
        execution did. The task's thread is then held at the barrier. */
    method RunNowArrive(k: nat, lookup: Value -> Option<Probe>, outcome: Outcome) returns (e: Execution)
      requires Valid() && k < |now.tasks| && k !in nowAllDone.arrived
      modifies this
      ensures Valid() && Latch() == old(Latch())
      ensures nowAllDone == old(nowAllDone).(arrived := old(nowAllDone.arrived) + {k})
      ensures (prepared, repeatingUntil, now, once, repeating)
           == old((prepared, repeatingUntil, now, once, repeating))
      ensures e == ExecutionOf(now.tasks[k], lookup, outcome)
    {
      e := ExecuteActivity(now.tasks[k], lookup, outcome);
      // finally: done.wait()
      nowAllDone := nowAllDone.(arrived := nowAllDone.arrived + {k});
    }

    /** The rest of `run_now`, once the barrier has let the k-th blocking
        task through, on one of the blocking pool's workers: a completed
        execution's run is checked; a raised one ends the task unchecked. */
    method RunNowCheck(k: nat, worker: Worker, lookup: Value -> Option<Probe>, outcome: Outcome,
                       e: Execution, within: (Value, Value) -> bool, finishedMeanwhile: bool)
      requires Valid() && k < |now.tasks| && k in nowAllDone.arrived && BarrierPassed()
      requires e == ExecutionOf(now.tasks[k], lookup, outcome)
      requires worker.pool == Now && worker.slot < now.workers
      modifies this
      ensures Valid() && Resources() == old(Resources())
      ensures Latch() == match e
                         case Completed(run) =>
                           Step(old(Latch()), CheckEvent(now.tasks[k], run, within, worker, finishedMeanwhile))
                         case Raised(_) => old(Latch())
    {
      if e.Completed? {
        var _ := InterruptExperimentOnUnhealthyProbe(now.tasks[k], e.run, within, worker, finishedMeanwhile);
      }
    }

    /** `run_soon`, for the k-th task of the background pool on one of its
        workers. */
    method RunSoon(k: nat, worker: Worker, lookup: Value -> Option<Probe>, outcome: Outcome,
                   within: (Value, Value) -> bool, finishedMeanwhile: bool)
      requires Valid() && k < |once.tasks|
      requires worker.pool == Once && worker.slot < once.workers
      modifies this
      ensures Valid() && Resources() == old(Resources())
      ensures Latch() == match ExecutionOf(once.tasks[k], lookup, outcome)
                         case Completed(run) =>
                           Step(old(Latch()), CheckEvent(once.tasks[k], run, within, worker, finishedMeanwhile))
                         case Raised(_) => old(Latch())
    {
      var probe := once.tasks[k];
      var e := ExecuteActivity(probe, lookup, outcome);
      if e.Completed? {
        var _ := InterruptExperimentOnUnhealthyProbe(probe, e.run, within, worker, finishedMeanwhile);
      }
    }

    /** One turn of `run_repeatedly` after the stop flag was seen unset at
        turn i: execute the probe, wait, and check the run. It reports
        whether the execution or the check raised, which ends the task; the
        turn is the first step of `Repeatedly` over the turns left. */
    method RepeatingTurn(probe: Probe, worker: Worker, lookup: Value -> Option<Probe>,
                         within: (Value, Value) -> bool, ticks: seq<Tick>, i: nat) returns (raised: bool)
      requires Valid() && i < |ticks| && !ticks[i].stopSet
      requires EndsWithin(probe, lookup, ticks[i..])
      modifies this
      ensures Valid() && Resources() == old(Resources())
      ensures raised ==> Repeatedly(old(Latch()), probe, lookup, within, worker, ticks[i..]) == (1, Latch())
      ensures !raised ==> i + 1 < |ticks| && EndsWithin(probe, lookup, ticks[i + 1..])
      ensures !raised ==>
                var next := Repeatedly(Latch(), probe, lookup, within, worker, ticks[i + 1..]);
                Repeatedly(old(Latch()), probe, lookup, within, worker, ticks[i..]) == (1 + next.0, next.1)
    {
      ghost var s, rest := Latch(), ticks[i..];
      assert rest[0] == ticks[i] && rest[1..] == ticks[i + 1..];
      var e := ExecuteActivity(probe, lookup, ticks[i].outcome);
      if e.Raised? {
        RaisedTurn(s, probe, lookup, within, worker, rest);
        return true;
      }
      // the wait on the stop flag, up to `frequency`, is not modelled
      raised := InterruptExperimentOnUnhealthyProbe(probe, e.run, within, worker, ticks[i].finishedMeanwhile);
      TurnOutcome(s, Latch(), probe, lookup, within, worker, rest, raised);
    }

    /** `run_repeatedly`, for the k-th task of the repeating pool on one of
        its workers: while the stop flag is unset, run one turn. */
    method RunRepeatedly(k: nat, worker: Worker, lookup: Value -> Option<Probe>, within: (Value, Value) -> bool,
                         ticks: seq<Tick>) returns (executions: nat)
      requires Valid() && k < |repeating.tasks|
      requires worker.pool == Repeating && worker.slot < repeating.workers
      requires EndsWithin(repeating.tasks[k], lookup, ticks)
      modifies this
      ensures Valid() && Resources() == old(Resources())
      ensures (executions, Latch()) == Repeatedly(old(Latch()), repeating.tasks[k], lookup, within, worker, ticks)
    {
      var probe := repeating.tasks[k];
      ghost var total := Repeatedly(Latch(), probe, lookup, within, worker, ticks);
      var i := 0;
      executions := 0;
      assert ticks[i..] == ticks;
      ghost var left := total;
      while !ticks[i].stopSet
        invariant 0 <= i < |ticks|
        invariant EndsWithin(probe, lookup, ticks[i..])
        invariant Valid() && Resources() == old(Resources())
        invariant left == Repeatedly(Latch(), probe, lookup, within, worker, ticks[i..])
        invariant executions + left.0 == total.0 && left.1 == total.1
        decreases |ticks| - i
      {
        var raised := RepeatingTurn(probe, worker, lookup, within, ticks, i);
        executions := executions + 1;
        if raised {
          return;
        }
        i := i + 1;
        left := Repeatedly(Latch(), probe, lookup, within, worker, ticks[i..]);
      }
      LastTick(Latch(), probe, lookup, within, worker, ticks, i);
    }
  }

  /** Only submitted blocking tasks arrive, so with one party per blocking
      task plus the caller, the caller passes the barrier exactly when it and
      every blocking task have arrived. */
  lemma BarrierWaitsForEveryBlockingTask(g: Guardian)
    requires g.Valid() && g.nowAllDone.parties == |g.now.tasks| + 1
    ensures g.BarrierPassed() <==>
              g.nowAllDone.callerArrived && forall k :: 0 <= k < |g.now.tasks| ==> k in g.nowAllDone.arrived
  {
    var n, arrived := |g.now.tasks|, g.nowAllDone.arrived;
    var all := Positions(n);
    assert arrived <= all;
    assert arrived * all == arrived && arrived + all == all;
    assert |all - arrived| + |arrived| == n;
    if |arrived| == n {
      assert all - arrived == {};
      forall k | 0 <= k < n
        ensures k in arrived
      {
        assert k in all;
      }
    }
    if forall k :: 0 <= k < n ==> k in arrived {
      assert arrived == all;
    }
  }

  /** The positions of a pool's first `n` tasks. */
  function Positions(n: nat): (r: set<nat>)
    ensures |r| == n
    ensures forall k :: k in r <==> 0 <= k < n
  {
    if n == 0 then {}
    else
      var below := Positions(n - 1);
      assert n - 1 !in below;
      below + {n - 1}
  }

  /** `configure_control` then `before_experiment_control` with the
      control's probes: the pools hold the routed probes and have `count or
      1` workers, the barrier has one party per blocking task plus the
      caller, and with no blocking probe the caller alone passes it. */
  method PrepareAndRun(g: Guardian, probes: seq<Probe>)
    requires g.Valid()
    modifies g
    ensures g.Valid() && g.Latch() == old(g.Latch())
    ensures g.now == Pool(Workers(Count(probes, Now)), Routed(probes, Now), false)
    ensures g.once == Pool(Workers(Count(probes, Once)), Routed(probes, Once), false)
    ensures g.repeating == Pool(Workers(Count(probes, Repeating)), Routed(probes, Repeating), false)
    ensures g.nowAllDone.parties == |g.now.tasks| + 1
    ensures g.nowAllDone.callerArrived && g.nowAllDone.arrived == {}
    ensures g.BarrierPassed() <==> Count(probes, Now) == 0
  {
    g.Prepare(probes);
    g.Run(probes);
  }

  /** Two blocking probes go, in order, to the two workers of the blocking
      pool. */
  lemma BothBlocking(p1: Probe, p2: Probe)
    requires Classify(p1) == Now && Classify(p2) == Now
    ensures Routed([p1, p2], Now) == [p1, p2] && Count([p1, p2], Now) == 2
  {
    assert [p1, p2][..1] == [p1];
    assert [p1, p2][..0] == [];
  }

  /** A named probe without a reference, whose run returns None outside its
      tolerance, sets a fresh worker's flag and makes it exit. */
  lemma FailingNamedProbe(s: LatchState, p: Probe, lookup: Value -> Option<Probe>,
                          within: (Value, Value) -> bool, w: Worker)
    requires "name" in p && !Truthy(Get(p, "ref")) && !within(Get(p, "tolerance"), Null)
    requires !s.finished && w !in s.interrupted
    ensures match ExecutionOf(p, lookup, Returned(Null))
            case Completed(run) =>
              Step(s, CheckEvent(p, run, within, w, false))
              == s.(interrupted := s.interrupted + {w}, exits := s.exits + [w])
            case Raised(_) => false
  {
    var e := CheckEvent(p, ExecutionOf(p, lookup, Returned(Null)).run, within, w, false);
    assert Latches(s, e);
  }

  /** A fresh guardian prepared and run for two blocking probes: each has a
      worker of its own in the blocking pool, and the caller waits at the
      barrier for both. */
  method PreparedForTwoBlocking(p1: Probe, p2: Probe) returns (g: Guardian)
    requires Classify(p1) == Now && Classify(p2) == Now
    ensures fresh(g) && g.Valid() && g.Latch() == Initial
    ensures g.now.tasks == [p1, p2] && g.now.workers == 2
    ensures g.nowAllDone == Barrier(3, {}, true)
  {
    g := new Guardian();
    BothBlocking(p1, p2);
    PrepareAndRun(g, [p1, p2]);
  }

  /** Both tasks of a guardian run for two blocking probes execute and
      arrive; with the caller already there, the barrier lets all three
      through, and no check has run yet. */
  method BothBlockingTasksArrive(g: Guardian, p1: Probe, p2: Probe) returns (e1: Execution, e2: Execution)
    requires g.Valid() && g.Latch() == Initial
    requires g.now.tasks == [p1, p2] && g.nowAllDone == Barrier(3, {}, true)
    modifies g
    ensures g.Valid() && g.Latch() == Initial && g.BarrierPassed()
    ensures g.now == old(g.now) && g.nowAllDone == Barrier(3, {0, 1}, true)
    ensures e1 == ExecutionOf(p1, NoActivity, Returned(Null))
    ensures e2 == ExecutionOf(p2, NoActivity, Returned(Null))
  {
    e1 := g.RunNowArrive(0, NoActivity, Returned(Null));
    e2 := g.RunNowArrive(1, NoActivity, Returned(Null));
    assert |g.nowAllDone.arrived| == 2;
  }

  /** Past the barrier, a named blocking probe without a reference, whose
      run returns None outside its tolerance, fails its check on the k-th
      worker of the blocking pool: the worker finds its own flag unset,
      sets it and makes the experiment exit. */
  method BlockingCheckFails(g: Guardian, k: nat, e: Execution)
    requires g.Valid() && g.BarrierPassed() && k < |g.now.tasks| && k in g.nowAllDone.arrived
    requires "name" in g.now.tasks[k] && !Truthy(Get(g.now.tasks[k], "ref"))
    requires e == ExecutionOf(g.now.tasks[k], NoActivity, Returned(Null))
    requires k < g.now.workers && !g.finished && Worker(Now, k) !in g.interrupted
    modifies g
    ensures g.Valid() && g.Resources() == old(g.Resources())
    ensures g.now == old(g.now) && g.nowAllDone == old(g.nowAllDone)
    ensures g.interrupted == old(g.interrupted) + {Worker(Now, k)}
    ensures g.exits == old(g.exits) + [Worker(Now, k)] && !g.finished
  {
    FailingNamedProbe(g.Latch(), g.now.tasks[k], NoActivity, NeverWithin, Worker(Now, k));
    g.RunNowCheck(k, Worker(Now, k), NoActivity, Returned(Null), e, NeverWithin, false);
  }

  /** Past the barrier, two named blocking probes without a reference fail
      their checks, each on its own worker of the blocking pool: each
      worker finds its own flag unset and makes the experiment exit. */
  method BothBlockingChecksFail(g: Guardian, p1: Probe, p2: Probe, e1: Execution, e2: Execution)
    requires g.Valid() && g.Latch() == Initial && g.BarrierPassed()
    requires "name" in p1 && !Truthy(Get(p1, "ref")) && "name" in p2 && !Truthy(Get(p2, "ref"))
    requires g.now.tasks == [p1, p2] && g.now.workers == 2 && g.nowAllDone.arrived == {0, 1}
    requires e1 == ExecutionOf(p1, NoActivity, Returned(Null))
    requires e2 == ExecutionOf(p2, NoActivity, Returned(Null))
    modifies g
    ensures g.exits == [Worker(Now, 0), Worker(Now, 1)]
    ensures g.Resources() == old(g.Resources())
  {
    BlockingCheckFails(g, 0, e1);
    BlockingCheckFails(g, 1, e2);
  }

  /** Two blocking probes that both fail their check while the experiment
      runs, each on its own worker of the blocking pool: both tasks and the
      caller pass the barrier first, then the experiment is told to exit
      twice. */
  method TwoFailingBlockingProbes() returns (exits: seq<Worker>, passed: bool)
    ensures exits == [Worker(Now, 0), Worker(Now, 1)]
    ensures passed
  {
    var p1: Probe := map["name" := Str("p1")];
    var p2: Probe := map["name" := Str("p2")];
    var g := PreparedForTwoBlocking(p1, p2);
    var e1, e2 := BothBlockingTasksArrive(g, p1, p2);
    passed := g.BarrierPassed();
    BothBlockingChecksFail(g, p1, p2, e1, e2);
    exits := g.exits;
  }

  /** A lookup that finds no activity. */
  function NoActivity(ref: Value): Option<Probe>
  {
    None
  }

  /** A tolerance that no output meets. */
  predicate NeverWithin(tolerance: Value, output: Value)
  {
    false
  }
}

=== FILE: values.dfy ===
/** Values shared by the controls: the JSON-like documents the experiment
    runner hands to every control hook (activities, probes, run records), and
    Python's notion of truthiness that the hooks rely on. */
module Values {

  datatype Option<+T> = None | Some(value: T)

  /** A JSON-like value, as found in an experiment document. */
  datatype Value =
    | Null
    | Bool(b: bool)
    | Int(i: int)
    | Real(r: real)
    | Str(s: string)
    | List(items: seq<Value>)
    | Dict(entries: map<string, Value>)

  /** An activity (action or probe) or a run record: a dictionary. */
  type Activity = map<string, Value>

  /** Python truthiness: `None`, `False`, zero, and empty strings, lists and
      dictionaries are falsy; everything else is truthy. */
  predicate Truthy(v: Value)
    ensures !Truthy(v) <==>
              v in {Null, Bool(false), Int(0), Real(0.0), Str(""), List([]), Dict(map[])}
  {
    match v
    case Null => false
    case Bool(b) => b
    case Int(i) => i != 0
    case Real(r) => r != 0.0
    case Str(s) => s != ""
    case List(items) => items != []
    case Dict(entries) => entries != map[]
  }

  /** `d.get(key)`: the value under `key`, or `None` when the key is absent. */
  function Get(d: Activity, key: string): (v: Value)
    ensures key in d ==> v == d[key]
    ensures key !in d ==> v == Null
  {
    if key in d then d[key] else Null
  }
}
